=== FILE: README.md ===
# Token ledger and session views of the employee/project API, in Dafny

This project models the authentication core of a small Django REST API for
employees and projects, together with the small pure rules around it.

The core is the **access-token ledger**. It is a table mapping every access
token string issued at login to its owner, its creation time and a validity
flag. The ledger drives these views and commands:

- **Login** authenticates an employee. It blacklists every refresh token
  issued to that employee before, then records the new access token in the
  ledger.
- **Logout** invalidates the caller's ledger row first. Only then does it
  look at the refresh token in the body and blacklist it.
- **Refresh** exchanges a refresh token for a new access token. It never
  writes the ledger.
- **The `IsValidAccessToken` gate** takes the second word of the
  `Authorization` header. It honours that token only if the ledger holds a
  valid row for it.
- **The `delete_expired_tokens` command** (the purge) deletes every row
  created more than ten minutes ago, whether the row is valid or not.

Around that core the model covers these rules:

- the project span arithmetic of project creation and editing;
- the email-uniqueness rule of the employee serializers;
- the character-class field rules of the models;
- `create_superuser` and `normalize_email`;
- the self-service employee update;
- how an employee is rendered.

Every view is a pure function from the state and one request to a response
and the next state. Dates are day numbers. Timestamps are integers in
microseconds. Collections are Dafny maps and sets.

Modules, in dependency order:

| file | module | models |
|---|---|---|
| common.dfy | `Common` | optional values, validation results, JSON values, status codes |
| text.dfy | `Text` | Python's whitespace, `split()`, `strip()`, lower-casing, last index |
| calendar.dfy | `Calendar` | calendar dates and `strftime('%Y-%m-%d')` |
| ledger.dfy | `Ledger` | the `AccessToken` table, its cascade, and the purge command |
| auth_views.dfy | `AuthViews` | login, logout and refresh |
| validators.dfy | `Validators` | the `RegexValidator` rules and field bounds |
| employees.dfy | `Employees` | `create_superuser`, `validate_email`, self-update, rendering |
| permissions.dfy | `Permissions` | `IsValidAccessToken`, `IsAdminUser`, permission order |
| projects.dfy | `Projects` | project creation and editing |
| lifecycle.dfy | `Lifecycle` | sequences of requests and what the gate answers afterwards |

Some consequences of the code as written, each proved here:

- A refreshed access token has no ledger row, so every view guarded by
  `IsValidAccessToken` rejects it with 401 "Token does not exist"
  (`Lifecycle.RefreshedTokenRefused`, through `Permissions.CheckPermissions`).
- Logging in again revokes the earlier refresh token. It does not revoke
  the earlier access token (`Lifecycle.SecondLogin`).
- `LogoutView` is guarded only by the bearer-token authentication, not by
  the ledger gate. So logging out with an access token that is already
  invalid still answers 205 when the refresh token is accepted
  (`AuthViews.Logout`).
- A non-empty `Authorization` header with fewer than two words makes the
  gate fail with an uncaught `IndexError`, not a clean 401
  (`Permissions.IsValidAccessToken`). A view reaches the gate with such a
  header only when an authentication class other than the bearer-token
  one (the session, say) authenticated the request; the bearer-token
  authentication refuses such headers with 401 before any permission is
  checked. The authentication settings are not part of this model.

## Model

| member | source | states |
|---|---|---|
| Ledger.Create | myapp/models.py:65-69 | Inserting a row fails exactly when the token already has one, because the token column is unique. A new row belongs to its owner, is valid, and is stamped with the insertion time. Every other row is left as it was. |
| Ledger.Invalidate | myapp/views.py:107-109 | After invalidation the token is revoked. The set of rows, the row's owner and its creation time are unchanged. No other row changes. A row never turns from invalid back to valid. |
| Ledger.InvalidateIdempotent | myapp/views.py:107-109 | Invalidating a row a second time changes nothing. |
| Ledger.DeleteOwner | myapp/models.py:67 | Deleting an employee removes exactly the rows issued to that employee. The remaining rows are unchanged. |
| Ledger.Reap | myapp/management/commands/delete_expired_tokens.py:9-19 | The purge keeps exactly the rows created at or after now minus ten minutes; a row at the cutoff survives. It ignores validity and leaves the kept rows unchanged. The count it reports equals the number of rows removed. |
| Ledger.ReapTwice | myapp/management/commands/delete_expired_tokens.py:13-19 | A second purge at the same time removes nothing and reports 0. |
| Ledger.ReapMonotone | myapp/management/commands/delete_expired_tokens.py:10-15 | A later purge never keeps a row that an earlier purge removed. |
| AuthViews.Refresh | myapp/views.py:27-36 | A missing or empty refresh token gives 400. A token rejected by the library or found on the blacklist gives 401. Otherwise the answer is 200 with only the new access token. The 400 and 401 answers carry only their fixed messages, "Refresh token is required" and "Invalid token or expired", and never a token. The state, ledger included, is never changed. |
| AuthViews.Login | myapp/views.py:72-94 | Bad credentials give 401 and change nothing. Otherwise every refresh token issued earlier to the user ends up blacklisted, even when the login then fails. If the library already holds the minted refresh token (issued or blacklisted before), its unique `jti` makes `for_user` fail: the answer is 500, and no token is issued or recorded. Otherwise the new refresh token is recorded as the user's and nobody else's. If the access token already has a row, the answer is 500 and the ledger is unchanged. The answer is 200 exactly when both tokens are fresh. Then the pair is returned, the refresh token is not blacklisted, and the ledger gains exactly one valid row, keyed by the access token, owned by the user and stamped now. Earlier rows, including the user's, are untouched. |
| AuthViews.LoginIgnoresBlacklist | myapp/views.py:77-82 | Which earlier refresh tokens were already blacklisted never changes the login's response. Failed blacklist inserts are swallowed. Only whether the newly minted token is blacklisted is held fixed, since that says whether the library already holds it. |
| AuthViews.Logout | myapp/views.py:103-121 | A token without a row gives 400 and changes nothing. Otherwise its row is invalid afterwards, whatever the response, and no other row changes. 205 is returned exactly when a refresh token is present and is accepted, and only then is that token added to the blacklist. Every other outcome is 400. |
| Text.WordsOfSpaced | myapp/permissions.py:15 | Lay out any words with whitespace runs before, between and after them; the runs between words must be non-empty, and every word non-empty and free of whitespace. `split()` then gives back exactly those words, in order. Tabs, repeated separators and leading or trailing whitespace yield no empty words. |
| Text.TwoWords | myapp/permissions.py:15 | Two words with any whitespace around them and a non-empty whitespace run between them split into exactly those two words. |
| Text.WordsOfJoin | myapp/permissions.py:15 | Splitting a space-joined list of words gives back that list. |
| Permissions.IsValidAccessToken | myapp/permissions.py:11-25 | A missing or empty header is refused as missing. A header of fewer than two words crashes. The second word is refused as nonexistent when it has no row, and as invalid when its row is invalid. It is allowed exactly when its row is valid. The gate returns only a verdict, so it never changes the ledger. |
| Permissions.BearerHeader | myapp/permissions.py:13-21 | For a header `<scheme> <token>` the answer depends only on the token's row, whatever the scheme word is. |
| Permissions.SpacedBearerHeader | myapp/permissions.py:13-21 | The same holds for a header whose two words are surrounded and separated by any whitespace, tabs and repeated spaces included: the token is the second word, and only its row decides the answer. |
| Permissions.CheckPermissions | myapp/permissions.py:6-25 | A request passes exactly when the user is authenticated, the gate allows the token, and on admin-only views the user is staff. An unauthenticated user gets 401. A gate denial gets 401 with the gate's message. A staff check that fails after the gate allowed the token gets 403 with the standard "no permission" message. A gate crash is a server error. |
| Permissions.GuardedView | myapp/permissions.py:6-25 | For an authenticated employee sending `<scheme> <token>`, a view guarded by the gate answers 401 "Token does not exist" when the token has no row and 401 "Token is invalid" when its row is invalid. Otherwise it answers 403 when the view is staff-only and the employee is not staff, and grants the request in every other case. |
| Validators.ValidPersonName | myapp/models.py:20-26 | A first or last name is valid exactly when it has at most 30 characters and the regex engine's left-to-right reading of `^[A-Za-z_]+$` matches it. |
| Validators.ValidProjectName | myapp/models.py:40-56 | A project name is valid exactly when it has at most 100 characters and `^[A-Za-z_]+$` matches it. |
| Validators.ValidDescription | myapp/models.py:44-57 | A description is valid exactly when it is not blank and `^[A-Za-z0-9\s.,;:!?()-]*$` matches it. |
| Validators.ValidStatus | myapp/models.py:44-60 | A status is valid exactly when it is not blank, has at most 50 characters, and the description pattern matches it. |
| Validators.StatusRuleIsWider | myapp/models.py:44-60 | The status field uses the description class. It accepts every value the unused letters-and-spaces validator would accept, and more, such as "v1.0". |
| Employees.NormalizeEmailFacts | myapp/models.py:10 | An address without `@` is returned unchanged. Otherwise the result is stripped and still contains `@`. Its local part is the local part of the stripped input, and its domain is the stripped input's domain lower-cased. |
| Employees.NormalizeEmailIdempotent | myapp/models.py:10 | Normalizing an address twice gives the same result as normalizing it once. |
| Employees.CreateSuperuser | myapp/models.py:7-16 | A missing or empty email raises the "must be set" error. Creation succeeds exactly when the normalized address is not taken. The new employee is both staff and superuser and has the normalized address. No other employee changes. Email uniqueness is preserved. |
| Employees.ValidateEmail | myapp/serializers.py:32-38 | On creation, an address is rejected exactly when some employee has it. On update, it is rejected exactly when a different employee has it. An accepted address is returned unchanged. |
| Employees.KeepOwnEmail | myapp/serializers.py:33-35 | When addresses are unique, keeping one's own address passes the update check. |
| Employees.UpdateKeepsEmailsUnique | myapp/serializers.py:32-38 | Writing an address accepted for an update keeps addresses unique. |
| Employees.CreateKeepsEmailsUnique | myapp/serializers.py:56-62 | Storing a new employee whose address was accepted for creation keeps addresses unique. |
| Employees.Represent | myapp/serializers.py:15-30 | The rendering has every declared field except the write-only password. Names and email are rendered as stored, and the projects as the list of their keys in order. The join date is null exactly when it is absent. Otherwise it is a string that parses back to the same date. |
| Calendar.FormatParseRoundTrip | myapp/serializers.py:29 | Reading a date rendered as `YYYY-MM-DD` gives back the same date. |
| Employees.SelfUpdate | myapp/views.py:207-229 | An invalid body gives 400 and changes nothing. Supplied `projects` give 403, but names and email are already written and the password is not. Otherwise the answer is 200: the password is set if supplied, and the body is the new rendering. Only the caller's row changes, and never its projects, staff flags or join date. Email uniqueness is preserved. |
| Projects.ProjectPost | myapp/views.py:240-262 | An invalid body, or a start not before the end, gives 400 and stores nothing. A saved project keeps the supplied fields. Its span is the positive difference when both dates are given. With only an end date the span is end minus today, with no ordering check. Without an end date it is 90. Name uniqueness is preserved. |
| Projects.ProjectUpdate | myapp/views.py:294-315 | A missing date falls back to the stored one, and the same ordering rule then gives 400. The span is computed as on creation from the merged dates. With no end date the stored span is kept, not reset to 90. Only the edited project changes, and name uniqueness is preserved. |
| Projects.SpanIsReadOnly | myapp/serializers.py:69-74 | A client-supplied span has no effect on creation or on editing. |
| Projects.UpdateAgreesWithPost | myapp/views.py:246-310 | Editing both dates of a project gives the span that creating it with those dates gives. |
| Projects.UpdateIdempotent | myapp/views.py:299-313 | Sending the same edit twice on the same day stores the same project as sending it once. |
| Lifecycle.RevokedStaysRevoked | myapp/views.py:84-121 | Once a token's row is gone or invalid, no sequence of logins, logouts, refreshes, purges or deletions revives it, unless a login mints the same string again. |
| Lifecycle.BlacklistGrows | myapp/views.py:77-82 | No sequence of operations removes a refresh token from the blacklist. |
| Lifecycle.RevokedTokenRefused | myapp/permissions.py:16-21 | A revoked access token is refused by the gate after any later sequence of operations that does not mint it again. |
| Lifecycle.BlacklistedRefreshRefused | myapp/views.py:31-36 | A blacklisted refresh token is refused with 401 by the refresh view from then on. |
| Lifecycle.LogoutRevokesAccess | myapp/views.py:106-121 | After logout the gate refuses the access token as invalid, even when the logout itself answered 400 over the refresh token. |
| Lifecycle.RefreshedTokenRefused | myapp/views.py:32-34 | An access token minted by the refresh view has no ledger row. The gate refuses it as nonexistent, so every guarded view answers 401 "Token does not exist". |
| Lifecycle.SecondLogin | myapp/views.py:76-92 | After a first login that succeeds, a second login blacklists the first login's refresh token, which can then no longer be exchanged. The first access token is still honoured. |
| Lifecycle.LoginLogoutSession | myapp/views.py:72-121 | With fresh tokens, login gives 200 with a pair whose access token passes the gate. A logout with that refresh token gives 205. Afterwards the access token is refused as invalid and the refresh token gets 401. |
| Lifecycle.DeletedEmployeeRevoked | myapp/models.py:67 | Deleting an employee revokes every access token issued to them. None of their refresh tokens is still recorded as theirs, because the library's outstanding-token rows lose their user. |
| Lifecycle.PurgeScenario | myapp/management/commands/delete_expired_tokens.py:10-17 | Take a row fifteen minutes old and a row one minute old. The purge deletes the first, keeps the second and reports 1. |

## Left out

- Signing and verifying tokens is the job of the token library. Its minted
  strings are parameters, and its verdict on a refresh token is the
  `Verdict` parameter. Its blacklist check is modelled against the state.
- The library's `blacklist()` also get-or-creates an outstanding-token row,
  owned by the user named in the token's payload. The model does not add
  such a token to `outstanding`, because payloads are not modelled.
  `AuthViews.Recorded` counts every blacklisted token as held instead.
- `authenticate` and password hashing: the authenticated user is a
  parameter, and passwords are stored as given.
- The ORM, HTTP request and response objects, and the swagger decorators.
  The plain list, get and delete views have no logic of their own;
  deletion appears only through its cascade on the ledger.
- The admin update view `EmployeeUpdate.put` (myapp/views.py:154-175) is
  outside the modelled core. It applies a validated partial update to any
  employee, sets the password when one is given, and replaces the projects
  when they are supplied.
- The registration view `RegisterView.post` (myapp/views.py:46-62) is
  outside the modelled core. It validates a full employee body, stores the
  employee with the hashed password, assigns any projects, and answers 201
  with the rendering.
- The routing table in myapp/urls.py imports `ProjectFilter` and
  `EmployeeFilter`, which myapp/views.py does not define, so nothing there
  can be modelled.
- Clock and `date.today()` are parameters.
- Email format checking is left out. The regular-expression engine is
  modelled only for the single-class patterns the models use
  (`Validators.StarMatch`, `Validators.PlusMatch`).
- The serializers strip leading and trailing whitespace before validating.
  The predicates apply to the stripped value, and the stripping itself is
  not modelled.
- The many-to-many project/employee assignment is left out.
- Projects.ProjectPost: does not require the `employees` list that the
  project serializer demands, because that assignment is left out.
- Employees.SelfUpdate: checks supplied project keys only for existence,
  and does not model the assignment itself.
- Concurrency between request workers and the purge is left out; the model
  is sequential.
- Projects.ProjectPost: the date columns are declared with `default=None`
  but not as nullable. A project with a missing date would therefore be
  refused by the database when saved, and the model stores it anyway.
  The schema migrations are not part of this model.
- Employees.NormalizeEmailFacts: lower-cases ASCII letters only, where Python's
  `str.lower()` also lower-cases other letters.
- Employees.CreateSuperuser: extra keyword fields are not modelled. The key
  the database assigns is a parameter.
- Employees.Represent: the join date is the calendar date of the stored
  timestamp. Years below 1000 are padded to four digits, which the C
  library behind `strftime` may not do.
- Validation error bodies (`serializer.errors`) and the server-error page
  are reduced to a status and a short message.

=== FILE: auth_views.dfy ===
/** The session views of myapp/views.py: login, logout and access-token
    refresh, each a function from the current state and one request to a
    response and the next state.

    The signed-token library is an oracle here: the token strings it mints
    are parameters, and its signature and expiry check of a refresh token is
    the `Verdict` parameter. Its blacklist check, which it performs against
    the database, is modelled against `blacklist`. */
module AuthViews {

  import opened Common
  import opened Ledger

  /** The server-side state the session views read and write: the
      access-token table, the blacklisted refresh tokens, and the refresh
      tokens issued to each employee (the library's outstanding tokens). */
  datatype AuthState = AuthState(
    ledger: Table,
    blacklist: set<string>,
    outstanding: map<UserId, set<string>>)

  function OutstandingOf(s: AuthState, u: UserId): set<string>
  {
    if u in s.outstanding then s.outstanding[u] else {}
  }

  datatype Body =
    | TokenPair(access: string, refresh: string)
    | AccessOnly(access: string)
    | Message(text: string)

  datatype Response = Response(status: int, body: Body)

  datatype Outcome = Outcome(response: Response, state: AuthState)

  /** The library's own verification of a refresh token string: signature,
      expiry and format, with the message of the `TokenError` it raises. */
  datatype Verdict = Verified | Rejected(reason: string)

  const BlacklistedMessage := "Token is blacklisted"

  /** Why constructing `RefreshToken(token)` raises, if it does: the
      library's own checks first, then the blacklist. */
  function RefreshError(s: AuthState, token: string, v: Verdict): (e: Option<string>)
    ensures e.None? <==> v.Verified? && token !in s.blacklist
  {
    if v.Rejected? then Some(v.reason)
    else if token in s.blacklist then Some(BlacklistedMessage)
    else None
  }

  /** `CustomTokenRefreshView.post`: exchanges a refresh token for a new
      access token `minted` by the library. The table is never written, so a
      refreshed access token is not recorded in it. */
  function Refresh(s: AuthState, refresh: Option<string>, v: Verdict, minted: string): (o: Outcome)
    ensures o.state == s
    ensures o.response.status == HttpBadRequest <==> !Present(refresh)
    ensures o.response.status == HttpOk <==> Present(refresh) && v.Verified? && refresh.value !in s.blacklist
    ensures o.response.status == HttpUnauthorized <==>
              Present(refresh) && (v.Rejected? || refresh.value in s.blacklist)
    ensures o.response.status == HttpOk ==> o.response.body == AccessOnly(minted)
    // a refused token gets a fixed message, never a token
    ensures o.response.status == HttpBadRequest ==> o.response.body == Message("Refresh token is required")
    ensures o.response.status == HttpUnauthorized ==> o.response.body == Message("Invalid token or expired")
  {
    if !Present(refresh) then
      Outcome(Response(HttpBadRequest, Message("Refresh token is required")), s)
    else if RefreshError(s, refresh.value, v).None? then
      Outcome(Response(HttpOk, AccessOnly(minted)), s)
    else
      Outcome(Response(HttpUnauthorized, Message("Invalid token or expired")), s)
  }

  /** Whether the library already holds an outstanding-token row for `t`:
      one issued at an earlier login, or one blacklisted at a logout (the
      library records every token it blacklists as outstanding too). The
      row's `jti` column is unique, so minting `t` again fails. */
  predicate Recorded(s: AuthState, t: string)
  {
    t in s.blacklist || exists u :: u in s.outstanding && t in s.outstanding[u]
  }

  /** `LoginView.post` at time `now`, where `user` is what `authenticate`
      returned for the submitted email and password, and `access`/`refresh`
      are the tokens the library mints for the user. Requests are not
      atomic: what an insert that fails wrote before it stays written. */
  function Login(s: AuthState, user: Option<UserId>, now: int, access: string, refresh: string): (o: Outcome)
    // bad credentials: 401 and nothing changes
    ensures user.None? ==>
              o == Outcome(Response(HttpUnauthorized, Message("Invalid email or password")), s)
    // every refresh token issued to the user before is blacklisted, however
    // many of them already were, even when the login then fails
    ensures user.Some? ==> o.state.blacklist == s.blacklist + OutstandingOf(s, user.value)
    // a fresh refresh token is issued to the user, and to nobody else
    ensures user.Some? && !Recorded(s, refresh) ==>
              OutstandingOf(o.state, user.value) == OutstandingOf(s, user.value) + {refresh}
    ensures user.Some? && !Recorded(s, refresh) ==>
              forall v :: v != user.value ==> OutstandingOf(o.state, v) == OutstandingOf(s, v)
    // minting a refresh token the library already holds fails before the
    // table is written
    ensures user.Some? && Recorded(s, refresh) ==>
              && o.response == Response(HttpServerError, Message("IntegrityError"))
              && o.state.outstanding == s.outstanding
    // the login succeeds exactly when both new tokens are fresh
    ensures user.Some? ==> (o.response.status == HttpOk <==> !Recorded(s, refresh) && access !in s.ledger)
    ensures user.Some? && (Recorded(s, refresh) || access in s.ledger) ==>
              o.response == Response(HttpServerError, Message("IntegrityError")) && o.state.ledger == s.ledger
    ensures o.response.status == HttpOk ==>
              && o.response.body == TokenPair(access, refresh)
              && refresh !in o.state.blacklist
              && o.state.ledger.Keys == s.ledger.Keys + {access}
              && o.state.ledger[access] == Record(user.value, now, true)
              && forall t :: t in s.ledger ==> o.state.ledger[t] == s.ledger[t]
  {
    match user
    case None =>
      Outcome(Response(HttpUnauthorized, Message("Invalid email or password")), s)
    case Some(u) =>
      var revoked := s.blacklist + OutstandingOf(s, u);
      if Recorded(s, refresh) then
        Outcome(Response(HttpServerError, Message("IntegrityError")), s.(blacklist := revoked))
      else
        var issued := s.outstanding[u := OutstandingOf(s, u) + {refresh}];
        match Create(s.ledger, access, u, now)
        case Conflict =>
          Outcome(Response(HttpServerError, Message("IntegrityError")), AuthState(s.ledger, revoked, issued))
        case Inserted(l) =>
          Outcome(Response(HttpOk, TokenPair(access, refresh)), AuthState(l, revoked, issued))
  }

  /** `LogoutView.post` for a request authenticated with the access token
      `access`: its row is invalidated first, and only then is the refresh
      token from the body looked at and blacklisted. */
  function Logout(s: AuthState, access: string, refresh: Option<string>, v: Verdict): (o: Outcome)
    // a token with no row: 400 and nothing changes
    ensures access !in s.ledger ==> o == Outcome(Response(HttpBadRequest, Message("Invalid token")), s)
    // otherwise the row is invalid afterwards, whatever the response
    ensures access in s.ledger ==> access in o.state.ledger && !o.state.ledger[access].isValid
    ensures o.state.ledger.Keys == s.ledger.Keys
    ensures forall t :: t in s.ledger && t != access ==> o.state.ledger[t] == s.ledger[t]
    ensures Evolves(s.ledger, o.state.ledger)
    // 205 exactly when the row exists and the refresh token is accepted
    ensures o.response.status == HttpResetContent <==>
              access in s.ledger && Present(refresh) && v.Verified? && refresh.value !in s.blacklist
    ensures o.response.status != HttpResetContent ==> o.response.status == HttpBadRequest
    ensures o.state.blacklist ==
              if o.response.status == HttpResetContent then s.blacklist + {refresh.value} else s.blacklist
    ensures o.state.outstanding == s.outstanding
  {
    if access !in s.ledger then
      Outcome(Response(HttpBadRequest, Message("Invalid token")), s)
    else
      var s1 := s.(ledger := Invalidate(s.ledger, access));
      if !Present(refresh) then
        Outcome(Response(HttpBadRequest, Message("Refresh token is missing.")), s1)
      else
        match RefreshError(s, refresh.value, v)
        case Some(reason) =>
          Outcome(Response(HttpBadRequest, Message(reason)), s1)
        case None =>
          Outcome(Response(HttpResetContent, Message("You have succssfully Logout")),
                  s1.(blacklist := s1.blacklist + {refresh.value}))
  }

  /** Whether earlier refresh tokens were already blacklisted never changes
      what a login answers: failures to blacklist them again are swallowed.
      (Whether the newly minted token is blacklisted says whether the
      library already holds it, which does matter.) */
  lemma LoginIgnoresBlacklist(s: AuthState, b: set<string>, user: Option<UserId>, now: int, access: string, refresh: string)
    requires refresh in b <==> refresh in s.blacklist
    ensures Login(s, user, now, access, refresh).response ==
            Login(s.(blacklist := b), user, now, access, refresh).response
  {
  }
}

=== FILE: calendar.dfy ===
/** Calendar dates as Python's `datetime.date` holds them, and their rendering
    as `strftime('%Y-%m-%d')`. */
module Calendar {

  import opened Common
  import opened Text

  datatype CalendarDate = CalendarDate(year: int, month: int, day: int)

  /** Gregorian leap years. */
  predicate IsLeap(y: int)
  {
    y % 4 == 0 && (y % 100 != 0 || y % 400 == 0)
  }

  function DaysInMonth(y: int, m: int): int
    requires 1 <= m <= 12
  {
    if m == 2 then (if IsLeap(y) then 29 else 28)
    else if m == 4 || m == 6 || m == 9 || m == 11 then 30
    else 31
  }

  /** The dates `datetime.date` can represent: years 1 to 9999. */
  predicate ValidDate(d: CalendarDate)
  {
    && 1 <= d.year <= 9999
    && 1 <= d.month <= 12
    && 1 <= d.day <= DaysInMonth(d.year, d.month)
  }

  type Date = d: CalendarDate | ValidDate(d) witness CalendarDate(1970, 1, 1)

  function Pow10(n: nat): nat
  {
    if n == 0 then 1 else 10 * Pow10(n - 1)
  }

  predicate AllDigits(s: string)
  {
    forall i :: 0 <= i < |s| ==> IsAsciiDigit(s[i])
  }

  function DigitChar(n: nat): (c: char)
    requires n < 10
    ensures IsAsciiDigit(c)
  {
    (n + 48) as char
  }

  /** The decimal value of a run of digits. */
  function DigitsValue(s: string): nat
    requires AllDigits(s)
  {
    if s == [] then 0
    else DigitsValue(s[..|s| - 1]) * 10 + (s[|s| - 1] as int - 48)
  }

  /** `n` written in exactly `width` decimal digits, zero-padded on the left. */
  function Pad(n: nat, width: nat): (s: string)
    requires n < Pow10(width)
    ensures |s| == width && AllDigits(s)
  {
    if width == 0 then [] else Pad(n / 10, width - 1) + [DigitChar(n % 10)]
  }

  /** Reading the digits back gives the number that was padded. */
  lemma {:induction false} PadValue(n: nat, width: nat)
    requires n < Pow10(width)
    ensures DigitsValue(Pad(n, width)) == n
  {
    if width > 0 {
      var s := Pad(n, width);
      assert s[..|s| - 1] == Pad(n / 10, width - 1);
      PadValue(n / 10, width - 1);
    }
  }

  /** `d.strftime('%Y-%m-%d')`. */
  function FormatIso(d: Date): (s: string)
    ensures |s| == 10 && s[4] == '-' && s[7] == '-'
    ensures AllDigits(s[..4]) && AllDigits(s[5..7]) && AllDigits(s[8..])
  {
    var s := Pad(d.year, 4) + "-" + Pad(d.month, 2) + "-" + Pad(d.day, 2);
    assert s[..4] == Pad(d.year, 4);
    assert s[5..7] == Pad(d.month, 2);
    assert s[8..] == Pad(d.day, 2);
    s
  }

  /** Reading a `YYYY-MM-DD` string back into a date; anything else, or a day
      that does not exist, gives `None`. */
  function ParseIso(s: string): (r: Option<Date>)
    ensures r.Some? ==> |s| == 10 && s[4] == '-' && s[7] == '-'
  {
    if |s| == 10 && s[4] == '-' && s[7] == '-'
       && AllDigits(s[..4]) && AllDigits(s[5..7]) && AllDigits(s[8..])
    then
      var d := CalendarDate(DigitsValue(s[..4]), DigitsValue(s[5..7]), DigitsValue(s[8..]));
      if ValidDate(d) then Some(d) else None
    else None
  }

  /** Rendering a date and reading it back gives the same date. */
  lemma FormatParseRoundTrip(d: Date)
    ensures ParseIso(FormatIso(d)) == Some(d)
  {
    var s := FormatIso(d);
    assert s[..4] == Pad(d.year, 4);
    assert s[5..7] == Pad(d.month, 2);
    assert s[8..] == Pad(d.day, 2);
    PadValue(d.year, 4);
    PadValue(d.month, 2);
    PadValue(d.day, 2);
  }
}

=== FILE: common.dfy ===
/** Small shared vocabulary: optional values, validation results, the JSON
    values a response body is made of, and the HTTP status codes the views use. */
module Common {

  /** A value that may be absent (a missing request field, a nullable column). */
  datatype Option<+T> = None | Some(value: T)

  /** `d.get(key, default)`: the value if supplied, the fallback otherwise. */
  function OrElse<T>(o: Option<T>, fallback: T): T
  {
    if o.Some? then o.value else fallback
  }

  /** The outcome of a validation step: the accepted value or the message of
      the validation error raised instead. */
  datatype Result<+T> = Ok(value: T) | Err(message: string)

  /** A request field counts as supplied only when it is there and is not the
      empty string: the views test it with Python truthiness (`if not x`). */
  predicate Present(field: Option<string>)
  {
    field.Some? && field.value != ""
  }

  /** JSON values, as a serializer renders them. */
  datatype Json =
    | JNull
    | JStr(s: string)
    | JInt(i: int)
    | JList(items: seq<Json>)

  const HttpOk: int := 200
  const HttpCreated: int := 201
  const HttpResetContent: int := 205
  const HttpBadRequest: int := 400
  const HttpUnauthorized: int := 401
  const HttpForbidden: int := 403
  const HttpNotFound: int := 404
  const HttpServerError: int := 500
}

=== FILE: employees.dfy ===
/** Employees: the superuser factory of `EmployeeManager`, the email
    uniqueness rule of the serializers, the self-service update view, and
    how an employee is rendered. The password is kept as given: hashing is
    outside this model. */
module Employees {

  import opened Common
  import opened Text
  import opened Validators
  import opened Calendar

  datatype Employee = Employee(
    email: string,
    firstName: string,
    lastName: string,
    password: Option<string>,
    isStaff: bool,
    isSuperuser: bool,
    dateJoined: Option<Date>,
    projects: seq<nat>)

  /** The employees table, by primary key. */
  type Store = map<nat, Employee>

  /** The unique constraint on `Employee.email`. */
  predicate EmailsUnique(st: Store)
  {
    forall p, q :: p in st && q in st && p != q ==> st[p].email != st[q].email
  }

  /** Whether an employee other than `except` already has the address. */
  predicate EmailTaken(st: Store, value: string, except: Option<nat>)
  {
    exists p :: p in st && except != Some(p) && st[p].email == value
  }

  // ---------------------------------------------------------------------------
  // normalize_email and create_superuser

  /** The part after the last `@`. */
  function DomainOf(s: string): string
  {
    match LastIndex(s, '@')
    case None => []
    case Some(i) => s[i + 1..]
  }

  /** The part before the last `@`. */
  function LocalOf(s: string): string
  {
    match LastIndex(s, '@')
    case None => s
    case Some(i) => s[..i]
  }

  /** Characters that are not whitespace survive `lstrip()`. */
  lemma StripStartKeeps(s: string, c: char)
    requires !IsSpace(c)
    ensures c in s <==> c in StripStart(s)
    decreases |s|
  {
  }

  /** Characters that are not whitespace survive `rstrip()`. */
  lemma StripEndKeeps(s: string, c: char)
    requires !IsSpace(c)
    ensures c in s <==> c in StripEnd(s)
    decreases |s|
  {
  }

  /** Characters that are not whitespace survive `strip()`. */
  lemma StripKeeps(s: string, c: char)
    requires !IsSpace(c)
    ensures c in s <==> c in Strip(s)
  {
  }

  /** The last `@` of `local + "@" + domain` is the one in the middle when
      `domain` has none. */
  lemma SplitAtLastAt(local: string, domain: string)
    requires '@' !in domain
    ensures LastIndex(local + "@" + domain, '@') == Some(|local|)
    ensures (local + "@" + domain)[..|local|] == local
    ensures (local + "@" + domain)[|local| + 1..] == domain
  {
    var r := local + "@" + domain;
    assert r[|local|] == '@';
    assert r[|local| + 1..] == domain;
    forall j | |local| < j < |r|
      ensures r[j] != '@'
    {
      assert r[j] == domain[j - |local| - 1];
    }
    LastIndexIs(r, '@', |local|);
  }

  lemma LowerKeepsNonSpace(c: char)
    ensures IsSpace(LowerChar(c)) <==> IsSpace(c)
    ensures LowerChar(c) == '@' <==> c == '@'
    ensures LowerChar(LowerChar(c)) == LowerChar(c)
  {
  }

  /** The address `normalize_email` builds from the parts around the last `@`. */
  function Rejoin(local: string, domain: string): string
  {
    local + "@" + LowerAscii(domain)
  }

  /** Lower-casing neither creates nor removes an `@`. */
  lemma LowerNoAt(d: string)
    requires '@' !in d
    ensures '@' !in LowerAscii(d)
  {
  }

  /** Lower-casing twice is lower-casing once. */
  lemma LowerIdempotent(d: string)
    ensures LowerAscii(LowerAscii(d)) == LowerAscii(d)
  {
  }

  /** A rebuilt address has no whitespace at either end when the stripped
      address it came from had none. */
  lemma RejoinTrimmed(local: string, domain: string)
    requires local == [] || !IsSpace(local[0])
    requires domain == [] || !IsSpace(domain[|domain| - 1])
    ensures Strip(Rejoin(local, domain)) == Rejoin(local, domain)
  {
    var lower := LowerAscii(domain);
    var r := local + "@" + lower;
    assert r[0] == (if local == [] then '@' else local[0]);
    if |lower| > 0 {
      assert r[|r| - 1] == lower[|lower| - 1];
      LowerKeepsNonSpace(domain[|domain| - 1]);
    }
    StripTrimmed(r);
  }

  /** The parts of a stripped address around its last `@`: the domain has
      no `@`, and neither part has whitespace at its outer end. */
  lemma PartsAroundLastAt(t: string, i: nat)
    requires i < |t| && t[i] == '@'
    requires forall j :: i < j < |t| ==> t[j] != '@'
    requires t == [] || (!IsSpace(t[0]) && !IsSpace(t[|t| - 1]))
    ensures '@' !in t[i + 1..]
    ensures t[..i] == [] || !IsSpace(t[..i][0])
    ensures t[i + 1..] == [] || !IsSpace(t[i + 1..][|t[i + 1..]| - 1])
  {
  }

  /** Rebuilding a stripped address around its last `@` gives a stripped
      address whose last `@` is the same one and whose domain is lower case. */
  lemma RejoinFacts(t: string, i: nat)
    requires i < |t| && t[i] == '@'
    requires forall j :: i < j < |t| ==> t[j] != '@'
    requires t == [] || (!IsSpace(t[0]) && !IsSpace(t[|t| - 1]))
    ensures var r := Rejoin(t[..i], t[i + 1..]);
      && LastIndex(r, '@') == Some(i)
      && r[..i] == t[..i]
      && r[i + 1..] == LowerAscii(t[i + 1..])
      && Strip(r) == r
      && LowerAscii(LowerAscii(t[i + 1..])) == LowerAscii(t[i + 1..])
  {
    var local, domain := t[..i], t[i + 1..];
    PartsAroundLastAt(t, i);
    LowerNoAt(domain);
    SplitAtLastAt(local, LowerAscii(domain));
    RejoinTrimmed(local, domain);
    LowerIdempotent(domain);
  }

  /** `BaseUserManager.normalize_email`: when the stripped address contains
      an `@`, the part after the last one is lower-cased and the whole is
      returned stripped; an address with no `@` is returned as given. */
  function NormalizeEmail(e: string): string
  {
    var t := Strip(e);
    match LastIndex(t, '@')
    case None => e
    case Some(i) => Rejoin(t[..i], t[i + 1..])
  }

  /** An address with an `@` is rebuilt around the last `@` of its stripped
      form. */
  lemma NormalizeWithAt(e: string) returns (t: string, i: nat)
    requires '@' in e
    ensures t == Strip(e) && LastIndex(t, '@') == Some(i)
    ensures i < |t| && t[i] == '@'
    ensures forall j :: i < j < |t| ==> t[j] != '@'
    ensures t == [] || (!IsSpace(t[0]) && !IsSpace(t[|t| - 1]))
    ensures NormalizeEmail(e) == Rejoin(t[..i], t[i + 1..])
  {
    t, i := LastAtOfStripped(e);
  }

  /** The stripped form of an address with an `@` has a last `@`. */
  lemma LastAtOfStripped(e: string) returns (t: string, i: nat)
    requires '@' in e
    ensures t == Strip(e) && LastIndex(t, '@') == Some(i)
    ensures i < |t| && t[i] == '@'
    ensures forall j :: i < j < |t| ==> t[j] != '@'
    ensures t == [] || (!IsSpace(t[0]) && !IsSpace(t[|t| - 1]))
  {
    t := Strip(e);
    assert t == [] || (!IsSpace(t[0]) && !IsSpace(t[|t| - 1]));
    StripKeeps(e, '@');
    i := LastIndex(t, '@').value;
  }

  /** What `normalize_email` promises: an address without `@` comes back as
      given; any other comes back stripped, with an `@`, and with a domain
      in lower case. */
  lemma NormalizeEmailFacts(e: string)
    ensures '@' !in e ==> NormalizeEmail(e) == e
    ensures '@' in e ==> var r := NormalizeEmail(e);
              && '@' in r
              && Strip(r) == r
              && LowerAscii(DomainOf(r)) == DomainOf(r)
    // the local part of the stripped address is kept, its domain lower-cased
    ensures '@' in e ==> var r := NormalizeEmail(e);
              && LocalOf(r) == LocalOf(Strip(e))
              && DomainOf(r) == LowerAscii(DomainOf(Strip(e)))
  {
    if '@' in e {
      NormalizedFacts(e);
    } else {
      StripKeeps(e, '@');
    }
  }

  lemma NormalizedFacts(e: string)
    requires '@' in e
    ensures var r := NormalizeEmail(e);
              && '@' in r
              && Strip(r) == r
              && LowerAscii(DomainOf(r)) == DomainOf(r)
              && LocalOf(r) == LocalOf(Strip(e))
              && DomainOf(r) == LowerAscii(DomainOf(Strip(e)))
  {
    var t, i := NormalizeWithAt(e);
    RejoinFacts(t, i);
    var r := Rejoin(t[..i], t[i + 1..]);
    assert r[i] == '@';
    SplitAt(r, i);
    SplitAt(t, i);
  }

  /** The local part and the domain of an address whose last `@` is at `i`. */
  lemma SplitAt(s: string, i: nat)
    requires LastIndex(s, '@') == Some(i)
    ensures LocalOf(s) == s[..i] && DomainOf(s) == s[i + 1..]
  {
  }

  /** A string is its prefix before `i`, its `i`-th character and the rest. */
  lemma Reassemble(s: string, i: nat)
    requires i < |s|
    ensures s == s[..i] + [s[i]] + s[i + 1..]
  {
  }

  /** An address that is already stripped and whose domain is already lower
      case is its own normal form. */
  lemma NormalFormFixed(r: string, i: nat)
    requires Strip(r) == r && LastIndex(r, '@') == Some(i)
    requires LowerAscii(r[i + 1..]) == r[i + 1..]
    ensures NormalizeEmail(r) == r
  {
    assert NormalizeEmail(r) == r[..i] + "@" + r[i + 1..];
    Reassemble(r, i);
  }

  /** A rebuilt stripped address is its own normal form. */
  lemma RejoinNormal(t: string, i: nat)
    requires i < |t| && t[i] == '@'
    requires forall j :: i < j < |t| ==> t[j] != '@'
    requires t == [] || (!IsSpace(t[0]) && !IsSpace(t[|t| - 1]))
    ensures NormalizeEmail(Rejoin(t[..i], t[i + 1..])) == Rejoin(t[..i], t[i + 1..])
  {
    RejoinFacts(t, i);
    NormalFormFixed(Rejoin(t[..i], t[i + 1..]), i);
  }

  lemma NormalizeTwiceWithAt(e: string)
    requires '@' in e
    ensures NormalizeEmail(NormalizeEmail(e)) == NormalizeEmail(e)
  {
    var t, i := NormalizeWithAt(e);
    RejoinNormal(t, i);
  }

  /** Normalizing twice is normalizing once. */
  lemma NormalizeEmailIdempotent(e: string)
    ensures NormalizeEmail(NormalizeEmail(e)) == NormalizeEmail(e)
  {
    if '@' in e {
      NormalizeTwiceWithAt(e);
    }
  }

  const EmailMissing := "The Email field must be set"
  const EmailInUse := "This email is already in use."

  /** `EmployeeManager.create_superuser(email, password)`, where `pk` is the
      key the database assigns and `joined` the current date. An empty email
      raises `ValueError`; an address another employee has fails the unique
      constraint; otherwise the new employee is a staff member and a
      superuser and no other employee changes. */
  function CreateSuperuser(st: Store, pk: nat, email: Option<string>, password: Option<string>, joined: Date): (r: Result<Store>)
    requires pk !in st
    ensures !Present(email) ==> r == Err(EmailMissing)
    ensures r.Ok? <==> Present(email) && !EmailTaken(st, NormalizeEmail(email.value), None)
    ensures r.Ok? ==> r.value.Keys == st.Keys + {pk}
    ensures r.Ok? ==> r.value[pk].isStaff && r.value[pk].isSuperuser
    ensures r.Ok? ==> r.value[pk].email == NormalizeEmail(email.value)
    ensures r.Ok? ==> forall p :: p in st ==> r.value[p] == st[p]
    ensures r.Ok? && EmailsUnique(st) ==> EmailsUnique(r.value)
  {
    if !Present(email) then Err(EmailMissing)
    else
      var address := NormalizeEmail(email.value);
      if EmailTaken(st, address, None) then Err("IntegrityError")
      else Ok(st[pk := Employee(address, "", "", password, true, true, Some(joined), [])])
  }

  // ---------------------------------------------------------------------------
  // validate_email

  /** `validate_email` of `EmployeeSerializer` (and `RegisterSerializer`):
      when creating (`instance` absent) any employee with the address rejects
      it; when updating `instance`, only a different employee does. */
  function ValidateEmail(st: Store, instance: Option<nat>, value: string): (r: Result<string>)
    ensures r.Ok? ==> r.value == value
    ensures r.Err? ==> r.message == EmailInUse
    ensures instance.None? ==> (r.Err? <==> exists p :: p in st && st[p].email == value)
    ensures instance.Some? ==>
              (r.Err? <==> exists p :: p in st && p != instance.value && st[p].email == value)
  {
    if EmailTaken(st, value, instance) then Err(EmailInUse) else Ok(value)
  }

  /** Keeping one's own address passes the update check, as long as
      addresses are unique. */
  lemma KeepOwnEmail(st: Store, self: nat)
    requires EmailsUnique(st) && self in st
    ensures ValidateEmail(st, Some(self), st[self].email) == Ok(st[self].email)
  {
  }

  /** An address accepted for an update keeps addresses unique once written. */
  lemma UpdateKeepsEmailsUnique(st: Store, self: nat, value: string)
    requires EmailsUnique(st) && self in st
    requires ValidateEmail(st, Some(self), value).Ok?
    ensures EmailsUnique(st[self := st[self].(email := value)])
  {
  }

  /** An address accepted for a creation keeps addresses unique once the new
      employee is stored. */
  lemma CreateKeepsEmailsUnique(st: Store, pk: nat, e: Employee)
    requires EmailsUnique(st) && pk !in st
    requires ValidateEmail(st, None, e.email).Ok?
    ensures EmailsUnique(st[pk := e])
  {
  }

  // ---------------------------------------------------------------------------
  // Rendering

  /** The fields of `EmployeeSerializer`, and those marked write-only. */
  const EmployeeFields: seq<string> := ["first_name", "last_name", "email", "password", "date_joined", "projects"]
  const WriteOnlyFields: set<string> := {"password"}

  function FieldValue(e: Employee, f: string): Json
  {
    if f == "first_name" then JStr(e.firstName)
    else if f == "last_name" then JStr(e.lastName)
    else if f == "email" then JStr(e.email)
    else if f == "date_joined" then
      (if e.dateJoined.Some? then JStr(FormatIso(e.dateJoined.value)) else JNull)
    else if f == "projects" then JList(JsonKeys(e.projects))
    else JNull
  }

  /** A list of primary keys as the serializer renders it. */
  function JsonKeys(ks: seq<nat>): (js: seq<Json>)
    ensures |js| == |ks|
    ensures forall i :: 0 <= i < |ks| ==> js[i] == JInt(ks[i])
  {
    seq(|ks|, i requires 0 <= i < |ks| => JInt(ks[i]))
  }

  /** `EmployeeSerializer(e).data`: every declared field except the
      write-only password; the join date as `YYYY-MM-DD`, or null. */
  function Represent(e: Employee): (r: map<string, Json>)
    ensures "password" !in r
    ensures r.Keys == {"first_name", "last_name", "email", "date_joined", "projects"}
    ensures r["first_name"] == JStr(e.firstName) && r["last_name"] == JStr(e.lastName)
    ensures r["email"] == JStr(e.email)
    ensures r["projects"] == JList(JsonKeys(e.projects))
    ensures e.dateJoined.None? <==> r["date_joined"] == JNull
    ensures e.dateJoined.Some? ==>
              r["date_joined"].JStr? && ParseIso(r["date_joined"].s) == Some(e.dateJoined.value)
  {
    var r := map f | f in EmployeeFields && f !in WriteOnlyFields :: FieldValue(e, f);
    assert e.dateJoined.Some? ==> ParseIso(FormatIso(e.dateJoined.value)) == Some(e.dateJoined.value) by {
      if e.dateJoined.Some? { FormatParseRoundTrip(e.dateJoined.value); }
    }
    r
  }

  // ---------------------------------------------------------------------------
  // EmployeeSelfUpdate.put

  /** The body of a partial update; `dateJoined` is read-only and ignored. */
  datatype EmployeePatch = EmployeePatch(
    firstName: Option<string>,
    lastName: Option<string>,
    email: Option<string>,
    password: Option<string>,
    dateJoined: Option<Date>,
    projects: Option<seq<nat>>)

  datatype Reply =
    | Rendered(status: int, fields: map<string, Json>)
    | Detail(status: int, text: string)

  datatype Update = Update(reply: Reply, store: Store)

  /** `serializer.is_valid()` for a partial update of employee `self`, where
      `projectIds` are the keys of the stored projects. */
  predicate PatchValid(st: Store, self: nat, patch: EmployeePatch, projectIds: set<nat>)
  {
    && (patch.firstName.None? || ValidPersonName(patch.firstName.value))
    && (patch.lastName.None? || ValidPersonName(patch.lastName.value))
    && (patch.email.None? || ValidateEmail(st, Some(self), patch.email.value).Ok?)
    && (patch.password.None? || patch.password.value != "")
    && (patch.projects.None? || forall i :: 0 <= i < |patch.projects.value| ==> patch.projects.value[i] in projectIds)
  }

  /** `serializer.update` with the validated data left once the password and
      projects have been taken out: names and email. */
  function ApplyPatch(e: Employee, patch: EmployeePatch): Employee
  {
    e.(firstName := OrElse(patch.firstName, e.firstName),
       lastName := OrElse(patch.lastName, e.lastName),
       email := OrElse(patch.email, e.email))
  }

  /** Writing a validated patch to the caller's row keeps addresses unique. */
  lemma PatchKeepsEmailsUnique(st: Store, self: nat, patch: EmployeePatch, projectIds: set<nat>, e: Employee)
    requires self in st && PatchValid(st, self, patch, projectIds)
    requires e.email == OrElse(patch.email, st[self].email)
    ensures EmailsUnique(st) ==> EmailsUnique(st[self := e])
  {
  }

  /** `EmployeeSelfUpdate.put` for the authenticated employee `self`. */
  function SelfUpdate(st: Store, self: nat, patch: EmployeePatch, projectIds: set<nat>): (u: Update)
    ensures self !in st ==> u.reply.status == HttpNotFound && u.store == st
    ensures self in st && !PatchValid(st, self, patch, projectIds) ==>
              u.reply.status == HttpBadRequest && u.store == st
    ensures u.reply.status == HttpForbidden <==>
              self in st && PatchValid(st, self, patch, projectIds) && patch.projects.Some?
    ensures u.reply.status == HttpOk <==>
              self in st && PatchValid(st, self, patch, projectIds) && patch.projects.None?
    // only the caller's row changes, and never its projects, privileges or join date
    ensures u.store.Keys == st.Keys
    ensures forall p :: p in st && p != self ==> u.store[p] == st[p]
    ensures self in st ==>
              && u.store[self].projects == st[self].projects
              && u.store[self].isStaff == st[self].isStaff
              && u.store[self].isSuperuser == st[self].isSuperuser
              && u.store[self].dateJoined == st[self].dateJoined
    // the 403 comes after names and email were written, but before the password
    ensures u.reply.status in {HttpOk, HttpForbidden} ==>
              && u.store[self].firstName == OrElse(patch.firstName, st[self].firstName)
              && u.store[self].lastName == OrElse(patch.lastName, st[self].lastName)
              && u.store[self].email == OrElse(patch.email, st[self].email)
    ensures u.reply.status == HttpForbidden ==> u.store[self].password == st[self].password
    ensures u.reply.status == HttpOk ==>
              u.store[self].password == (if Present(patch.password) then patch.password else st[self].password)
    ensures u.reply.status == HttpOk ==> u.reply == Rendered(HttpOk, Represent(u.store[self]))
    ensures EmailsUnique(st) ==> EmailsUnique(u.store)
  {
    if self !in st then Update(Detail(HttpNotFound, "Not found."), st)
    else if !PatchValid(st, self, patch, projectIds) then Update(Detail(HttpBadRequest, "Invalid data."), st)
    else
      var updated := ApplyPatch(st[self], patch);
      if patch.projects.Some? then
        PatchKeepsEmailsUnique(st, self, patch, projectIds, updated);
        Update(Detail(HttpForbidden, "You Cannot Update Your Own Projects"), st[self := updated])
      else
        var saved := if Present(patch.password) then updated.(password := patch.password) else updated;
        PatchKeepsEmailsUnique(st, self, patch, projectIds, saved);
        Update(Rendered(HttpOk, Represent(saved)), st[self := saved])
  }
}

=== FILE: ledger.dfy ===
/** The access-token table (`AccessToken` in myapp/models.py) and the
    maintenance command that purges it. Each row records an issued access
    token string, the employee it was issued to, when the row was inserted,
    and whether the token is still honoured. */
module Ledger {

  import opened Common

  type Token = string
  type UserId = nat

  /** One row of the table; the token string is the key of the map, which is
      how the unique constraint on the `token` column is represented. */
  datatype Record = Record(owner: UserId, createdAt: int, isValid: bool)

  type Table = map<Token, Record>

  /** Timestamps are microseconds, the resolution of a `DateTimeField`;
      the purge keeps rows for ten minutes. */
  const TenMinutes: int := 10 * 60 * 1000000

  /** A token that the table no longer honours: its row is gone or marked invalid. */
  predicate Revoked(l: Table, t: Token)
  {
    t !in l || !l[t].isValid
  }

  /** What any change to the table may do to a row that survives it: owner
      and creation time never change, and an invalid row never becomes valid. */
  predicate Evolves(l: Table, l': Table)
  {
    forall t :: t in l && t in l' ==>
      && l'[t].owner == l[t].owner
      && l'[t].createdAt == l[t].createdAt
      && (l'[t].isValid ==> l[t].isValid)
  }

  datatype Insertion = Inserted(table: Table) | Conflict

  /** `AccessToken.objects.create(token=t, user=owner)` at time `now`: the
      unique constraint refuses a token already stored; a new row starts
      valid and is stamped with the insertion time. */
  function Create(l: Table, t: Token, owner: UserId, now: int): (r: Insertion)
    ensures r.Conflict? <==> t in l
    ensures r.Inserted? ==> r.table.Keys == l.Keys + {t}
    ensures r.Inserted? ==> r.table[t] == Record(owner, now, true)
    ensures r.Inserted? ==> forall u :: u in l ==> r.table[u] == l[u]
  {
    if t in l then Conflict else Inserted(l[t := Record(owner, now, true)])
  }

  /** Setting `is_valid = False` on the row of `t` and saving it. Invalidating
      an invalid row is harmless. */
  function Invalidate(l: Table, t: Token): (r: Table)
    ensures r.Keys == l.Keys
    ensures Revoked(r, t)
    ensures t in l ==> r[t].owner == l[t].owner && r[t].createdAt == l[t].createdAt
    ensures forall u :: u in l && u != t ==> r[u] == l[u]
    ensures Evolves(l, r)
  {
    if t in l then l[t := l[t].(isValid := false)] else l
  }

  /** Invalidation is idempotent. */
  lemma InvalidateIdempotent(l: Table, t: Token)
    ensures Invalidate(Invalidate(l, t), t) == Invalidate(l, t)
  {
  }

  /** Deleting an employee cascades to every row issued to them. */
  function DeleteOwner(l: Table, u: UserId): (r: Table)
    ensures forall t :: t in r <==> t in l && l[t].owner != u
    ensures forall t :: t in r ==> r[t] == l[t]
    ensures Evolves(l, r)
  {
    map t | t in l && l[t].owner != u :: l[t]
  }

  /** The outcome of the purge: the rows that remain and the count it reports. */
  datatype Sweep = Sweep(kept: Table, deleted: nat)

  /** Removing the keys of `b` from `a` removes exactly `|b|` keys when `b`
      lies inside `a`. */
  lemma {:induction false} CardDifference<T>(a: set<T>, b: set<T>)
    requires b <= a
    ensures |a - b| == |a| - |b|
    decreases |b|
  {
  }

  /** The `delete_expired_tokens` command run at time `now`: deletes every
      row created strictly before `now` minus ten minutes, whatever its
      validity, leaves every other row as it was, and reports how many rows
      it removed. */
  function Reap(l: Table, now: int): (r: Sweep)
    ensures forall t :: t in r.kept <==> t in l && l[t].createdAt >= now - TenMinutes
    ensures forall t :: t in r.kept ==> r.kept[t] == l[t]
    ensures r.deleted == |l| - |r.kept|
    ensures r.deleted == |set t | t in l && l[t].createdAt < now - TenMinutes|
  {
    var cutoff := now - TenMinutes;
    var expired := set t | t in l && l[t].createdAt < cutoff;
    var kept := map t | t in l && !(l[t].createdAt < cutoff) :: l[t];
    assert kept.Keys == l.Keys - expired;
    CardDifference(l.Keys, expired);
    Sweep(kept, |expired|)
  }

  /** A second purge at the same time finds nothing left to delete. */
  lemma ReapTwice(l: Table, now: int)
    ensures Reap(Reap(l, now).kept, now) == Sweep(Reap(l, now).kept, 0)
  {
    var first := Reap(l, now).kept;
    var second := Reap(first, now);
    assert second.kept == first;
    assert (set t | t in first && first[t].createdAt < now - TenMinutes) == {};
  }

  /** A later purge never keeps a row that an earlier one removed. */
  lemma ReapMonotone(l: Table, earlier: int, later: int)
    requires earlier <= later
    ensures Reap(l, later).kept.Keys <= Reap(l, earlier).kept.Keys
  {
  }
}

=== FILE: lifecycle.dfy ===
/** The token lifecycle across requests: any sequence of logins, logouts,
    refreshes, purges and employee deletions, and what the permission gate
    and the refresh view answer afterwards. */
module Lifecycle {

  import opened Common
  import opened Text
  import opened Ledger
  import opened AuthViews
  import opened Permissions
  import opened Employees

  /** One request or maintenance run that can change the session state. */
  datatype Op =
    | LoginOp(authenticated: Option<UserId>, time: int, access: string, issuedRefresh: string)
    | LogoutOp(access: string, sentRefresh: Option<string>, verdict: Verdict)
    | RefreshOp(sentRefresh: Option<string>, verdict: Verdict, minted: string)
    | ReapOp(time: int)
    | DeleteEmployeeOp(employee: UserId)

  function Step(s: AuthState, op: Op): AuthState
  {
    match op
    case LoginOp(u, now, a, r) => Login(s, u, now, a, r).state
    case LogoutOp(a, r, v) => Logout(s, a, r, v).state
    case RefreshOp(r, v, m) => Refresh(s, r, v, m).state
    case ReapOp(now) => s.(ledger := Reap(s.ledger, now).kept)
    case DeleteEmployeeOp(u) => s.(ledger := DeleteOwner(s.ledger, u), outstanding := s.outstanding - {u})
  }

  function Run(s: AuthState, ops: seq<Op>): AuthState
    decreases |ops|
  {
    if ops == [] then s else Run(Step(s, ops[0]), ops[1..])
  }

  /** Whether the operation is a login that mints the access token `t`. */
  predicate Mints(op: Op, t: Token)
  {
    op.LoginOp? && op.access == t
  }

  /** One operation never revives a revoked access token it does not mint,
      and never takes a refresh token off the blacklist. */
  lemma StepKeepsRevocations(s: AuthState, op: Op, t: Token)
    ensures Revoked(s.ledger, t) && !Mints(op, t) ==> Revoked(Step(s, op).ledger, t)
    ensures s.blacklist <= Step(s, op).blacklist
  {
  }

  /** Revocation is permanent: once an access token's row is gone or
      invalid, no sequence of operations that does not mint the same string
      again makes it valid. */
  lemma {:induction false} RevokedStaysRevoked(s: AuthState, ops: seq<Op>, t: Token)
    requires Revoked(s.ledger, t)
    requires forall i :: 0 <= i < |ops| ==> !Mints(ops[i], t)
    ensures Revoked(Run(s, ops).ledger, t)
    decreases |ops|
  {
    if ops != [] {
      StepKeepsRevocations(s, ops[0], t);
      RevokedStaysRevoked(Step(s, ops[0]), ops[1..], t);
    }
  }

  /** The blacklist only grows. */
  lemma {:induction false} BlacklistGrows(s: AuthState, ops: seq<Op>)
    ensures s.blacklist <= Run(s, ops).blacklist
    decreases |ops|
  {
    if ops != [] {
      StepKeepsRevocations(s, ops[0], "");
      BlacklistGrows(Step(s, ops[0]), ops[1..]);
    }
  }

  /** A revoked access token is refused by the gate from then on. */
  lemma RevokedTokenRefused(s: AuthState, ops: seq<Op>, scheme: string, t: Token)
    requires IsWord(scheme) && IsWord(t)
    requires Revoked(s.ledger, t)
    requires forall i :: 0 <= i < |ops| ==> !Mints(ops[i], t)
    ensures IsValidAccessToken(Run(s, ops).ledger, Some(scheme + " " + t)).Denied?
  {
    RevokedStaysRevoked(s, ops, t);
    BearerHeader(Run(s, ops).ledger, scheme, t);
  }

  /** A blacklisted refresh token is never exchanged again. */
  lemma BlacklistedRefreshRefused(s: AuthState, ops: seq<Op>, r: string, v: Verdict, minted: string)
    requires r != "" && r in s.blacklist
    ensures Refresh(Run(s, ops), Some(r), v, minted).response.status == HttpUnauthorized
  {
    BlacklistGrows(s, ops);
  }

  /** After logout the access token is refused by the gate, whether or not
      the logout went on to blacklist the refresh token. */
  lemma LogoutRevokesAccess(s: AuthState, scheme: string, a: Token, r: Option<string>, v: Verdict)
    requires IsWord(scheme) && IsWord(a)
    requires a in s.ledger
    ensures IsValidAccessToken(Logout(s, a, r, v).state.ledger, Some(scheme + " " + a)) == Denied(InvalidToken)
  {
    BearerHeader(Logout(s, a, r, v).state.ledger, scheme, a);
  }

  /** An access token obtained from the refresh view has no row, so the gate
      refuses it: refreshed tokens do not open the views it protects. */
  lemma RefreshedTokenRefused(s: AuthState, scheme: string, r: Option<string>, v: Verdict, minted: Token,
                               user: Employee, adminOnly: bool)
    requires IsWord(scheme) && IsWord(minted)
    requires minted !in s.ledger
    ensures var o := Refresh(s, r, v, minted);
            IsValidAccessToken(o.state.ledger, Some(scheme + " " + minted)) == Denied(UnknownToken)
    ensures var o := Refresh(s, r, v, minted);
            CheckPermissions(o.state.ledger, Some(scheme + " " + minted), Some(user), adminOnly)
              == Refused(HttpUnauthorized, UnknownToken)
  {
    BearerHeader(s.ledger, scheme, minted);
  }

  /** After a first login that succeeds, a second login blacklists the
      first refresh token, so it can no longer be exchanged, but leaves the
      first access token honoured: logging in again does not invalidate
      earlier access tokens. */
  lemma SecondLogin(s: AuthState, u: UserId, scheme: string,
                    n1: int, a1: Token, r1: string, n2: int, a2: Token, r2: string,
                    v: Verdict, minted: string)
    requires IsWord(scheme) && IsWord(a1) && r1 != ""
    requires a1 !in s.ledger && !Recorded(s, r1) && a2 != a1
    ensures var s1 := Login(s, Some(u), n1, a1, r1).state;
            var s2 := Login(s1, Some(u), n2, a2, r2).state;
            && r1 in s2.blacklist
            && Refresh(s2, Some(r1), v, minted).response.status == HttpUnauthorized
            && IsValidAccessToken(s2.ledger, Some(scheme + " " + a1)) == Allowed
  {
    var s1 := Login(s, Some(u), n1, a1, r1).state;
    var s2 := Login(s1, Some(u), n2, a2, r2).state;
    assert r1 in OutstandingOf(s1, u);
    BearerHeader(s2.ledger, scheme, a1);
  }

  /** The session of one employee, end to end: a login yields a pair whose
      access token opens the guarded views; logging out with the refresh
      token answers 205, after which the same access token is refused and
      the refresh token cannot be exchanged. */
  lemma LoginLogoutSession(s: AuthState, u: UserId, now: int, scheme: string, a: Token, r: string, minted: string)
    requires IsWord(scheme) && IsWord(a) && r != ""
    requires a !in s.ledger && !Recorded(s, r)
    ensures var login := Login(s, Some(u), now, a, r);
            var logout := Logout(login.state, a, Some(r), Verified);
            && login.response == Response(HttpOk, TokenPair(a, r))
            && IsValidAccessToken(login.state.ledger, Some(scheme + " " + a)) == Allowed
            && logout.response.status == HttpResetContent
            && IsValidAccessToken(logout.state.ledger, Some(scheme + " " + a)) == Denied(InvalidToken)
            && Refresh(logout.state, Some(r), Verified, minted).response.status == HttpUnauthorized
  {
    var login := Login(s, Some(u), now, a, r);
    BearerHeader(login.state.ledger, scheme, a);
    LogoutRevokesAccess(login.state, scheme, a, Some(r), Verified);
  }

  /** Deleting an employee revokes every access token issued to them, and
      their outstanding refresh tokens no longer belong to anyone (the
      library sets their user to null), so a later login blacklists none of
      them. */
  lemma DeletedEmployeeRevoked(s: AuthState, u: UserId, t: Token)
    requires t in s.ledger && s.ledger[t].owner == u
    ensures Revoked(Step(s, DeleteEmployeeOp(u)).ledger, t)
    ensures OutstandingOf(Step(s, DeleteEmployeeOp(u)), u) == {}
  {
  }

  /** The purge scenario: of a row fifteen minutes old and one a minute old,
      only the first is deleted and the count reported is one. */
  lemma PurgeScenario(now: int, stale: Token, recent: Token, u: UserId)
    requires stale != recent
    ensures var l := map[stale := Record(u, now - 15 * 60 * 1000000, true),
                         recent := Record(u, now - 60 * 1000000, true)];
            Reap(l, now) == Sweep(map[recent := l[recent]], 1)
  {
  }
}

=== FILE: permissions.dfy ===
/** The permission classes of myapp/permissions.py, and the order in which a
    view applies them. `IsValidAccessToken` reads the access-token table and
    never writes it, so its result is all it produces. */
module Permissions {

  import opened Common
  import opened Text
  import opened Ledger
  import opened Employees

  const MissingHeader := "Authorization header is missing"
  const UnknownToken := "Token does not exist"
  const InvalidToken := "Token is invalid"
  const NotAuthenticated := "Authentication credentials were not provided."
  const NotPermitted := "You do not have permission to perform this action."

  /** What `has_permission` does: grants, raises `AuthenticationFailed` with
      a reason, or fails with an uncaught `IndexError`. */
  datatype GateResult = Allowed | Denied(reason: string) | Crashed

  /** `IsValidAccessToken.has_permission` for the `Authorization` header
      `header`: the token is the second whitespace-separated word, whatever
      the first one says. */
  function IsValidAccessToken(l: Table, header: Option<string>): (g: GateResult)
    ensures g == Denied(MissingHeader) <==> !Present(header)
    ensures g.Crashed? <==> Present(header) && |Words(header.value)| < 2
    ensures g == Denied(UnknownToken) <==>
              Present(header) && |Words(header.value)| >= 2 && Words(header.value)[1] !in l
    ensures g == Denied(InvalidToken) <==>
              && Present(header) && |Words(header.value)| >= 2
              && Words(header.value)[1] in l && !l[Words(header.value)[1]].isValid
    ensures g.Allowed? <==>
              Present(header) && |Words(header.value)| >= 2 && !Revoked(l, Words(header.value)[1])
  {
    if !Present(header) then Denied(MissingHeader)
    else
      var words := Words(header.value);
      if |words| < 2 then Crashed
      else if words[1] !in l then Denied(UnknownToken)
      else if !l[words[1]].isValid then Denied(InvalidToken)
      else Allowed
  }

  /** For a header `<scheme> <token>` the gate's answer depends on the table
      row of the token alone: any scheme word is accepted. */
  lemma BearerHeader(l: Table, scheme: string, token: string)
    requires IsWord(scheme) && IsWord(token)
    ensures IsValidAccessToken(l, Some(scheme + " " + token)) ==
              if token !in l then Denied(UnknownToken)
              else if !l[token].isValid then Denied(InvalidToken)
              else Allowed
  {
    WordsOfJoin([scheme, token]);
    assert JoinWords([scheme, token]) == scheme + " " + token by {
      assert [scheme, token][1..] == [token];
    }
  }

  /** The same for any whitespace around and between the two words: tabs,
      repeated spaces and leading or trailing whitespace change nothing. */
  lemma SpacedBearerHeader(l: Table, lead: string, scheme: string, sep: string, token: string, trail: string)
    requires AllSpace(lead) && AllSpace(sep) && AllSpace(trail) && sep != []
    requires IsWord(scheme) && IsWord(token)
    ensures IsValidAccessToken(l, Some(lead + scheme + sep + token + trail)) ==
              if token !in l then Denied(UnknownToken)
              else if !l[token].isValid then Denied(InvalidToken)
              else Allowed
  {
    TwoWords(lead, scheme, sep, token, trail);
  }

  /** `IsAdminUser.has_permission`. */
  function IsAdminUser(user: Employee): bool
  {
    user.isStaff
  }

  /** What the view does with the request. */
  datatype Decision = Granted | Refused(status: int, reason: string) | Failed

  /** `check_permissions` of a view whose `permission_classes` are
      `IsAuthenticated`, `IsValidAccessToken` and, on the administrative
      views, `IsAdminUser`, applied in that order; `user` is the employee
      an authentication class resolved, if any. The header is taken as
      given: when the bearer-token authentication is the one that
      resolved `user`, it has already refused malformed headers, so the
      `Failed` outcome needs another authentication class (such as the
      session) to have let the request through. */
  function CheckPermissions(l: Table, header: Option<string>, user: Option<Employee>, adminOnly: bool): (d: Decision)
    ensures d.Granted? <==>
              && user.Some?
              && IsValidAccessToken(l, header).Allowed?
              && (adminOnly ==> user.value.isStaff)
    ensures user.None? ==> d == Refused(HttpUnauthorized, NotAuthenticated)
    ensures d.Refused? && d.status == HttpForbidden <==>
              user.Some? && IsValidAccessToken(l, header).Allowed? && adminOnly && !user.value.isStaff
    ensures d.Refused? && d.status == HttpForbidden ==> d == Refused(HttpForbidden, NotPermitted)
    ensures d.Failed? <==> user.Some? && IsValidAccessToken(l, header).Crashed?
    // the gate's `AuthenticationFailed` becomes a 401 carrying its message
    ensures user.Some? && IsValidAccessToken(l, header).Denied? ==>
              d == Refused(HttpUnauthorized, IsValidAccessToken(l, header).reason)
  {
    if user.None? then Refused(HttpUnauthorized, NotAuthenticated)
    else
      match IsValidAccessToken(l, header)
      case Crashed => Failed
      case Denied(reason) => Refused(HttpUnauthorized, reason)
      case Allowed =>
        if adminOnly && !IsAdminUser(user.value) then Refused(HttpForbidden, NotPermitted)
        else Granted
  }

  /** On a guarded view, the verdict of the gate is what the client sees:
      for a header `<scheme> <token>` from an authenticated employee, a
      token without a row is answered 401 "Token does not exist", an
      invalidated one 401 "Token is invalid", and a valid one passes unless
      the view is for staff and the employee is not. */
  lemma GuardedView(l: Table, scheme: string, token: string, user: Employee, adminOnly: bool)
    requires IsWord(scheme) && IsWord(token)
    ensures var d := CheckPermissions(l, Some(scheme + " " + token), Some(user), adminOnly);
            d == if token !in l then Refused(HttpUnauthorized, UnknownToken)
                 else if !l[token].isValid then Refused(HttpUnauthorized, InvalidToken)
                 else if adminOnly && !user.isStaff then Refused(HttpForbidden, NotPermitted)
                 else Granted
  {
    BearerHeader(l, scheme, token);
  }
}

=== FILE: projects.dfy ===
/** Creating and editing projects (`ProjectPost.post` and
    `ProjectUpdate.put` in myapp/views.py). Dates are day numbers, so the
    difference of two dates is their `.days`; `today` is the server's
    current date. */
module Projects {

  import opened Common
  import opened Validators

  datatype Project = Project(
    name: string,
    description: string,
    start: Option<int>,
    end: Option<int>,
    status: string,
    span: int)

  /** The projects table, by primary key. */
  type Catalog = map<nat, Project>

  /** A request body; `span` is what the client sent for the read-only
      `estimated_span_in_days`, which the views never use. */
  datatype ProjectRequest = ProjectRequest(
    name: Option<string>,
    description: Option<string>,
    start: Option<int>,
    end: Option<int>,
    status: Option<string>,
    span: Option<int>)

  datatype ProjectReply =
    | Saved(status: int, project: Project)
    | Failed(status: int, message: string)

  datatype ProjectChange = ProjectChange(reply: ProjectReply, catalog: Catalog)

  /** The span a new project without an end date gets. */
  const DefaultSpan: int := 90

  const BadPostDates := "Invalid start date. End Date must be after start date"
  const BadUpdateDates := "Invalid Date Request"

  /** The unique constraint on `ProjectDetails.name`. */
  predicate NamesUnique(c: Catalog)
  {
    forall p, q :: p in c && q in c && p != q ==> c[p].name != c[q].name
  }

  /** Whether a project other than `except` already has the name. */
  predicate NameTaken(c: Catalog, name: string, except: Option<nat>)
  {
    exists p :: p in c && except != Some(p) && c[p].name == name
  }

  /** Both dates known and the start not before the end. */
  predicate Misordered(start: Option<int>, end: Option<int>)
  {
    start.Some? && end.Some? && start.value >= end.value
  }

  /** The span both views compute: end minus start when both dates are
      known, end minus today when only the end is, and `fallback` when there
      is no end date. */
  function Span(start: Option<int>, end: Option<int>, today: int, fallback: int): int
  {
    if start.Some? && end.Some? then end.value - start.value
    else if end.Some? then end.value - today
    else fallback
  }

  /** `serializer.is_valid()` on a creation: name, description and status
      are required and must pass their field rules; the name must be new. */
  predicate PostValid(c: Catalog, req: ProjectRequest)
  {
    && req.name.Some? && ValidProjectName(req.name.value) && !NameTaken(c, req.name.value, None)
    && req.description.Some? && ValidDescription(req.description.value)
    && req.status.Some? && ValidStatus(req.status.value)
  }

  /** `ProjectPost.post`, storing the new project under the key `pk` the
      database assigns. */
  function ProjectPost(c: Catalog, pk: nat, req: ProjectRequest, today: int): (ch: ProjectChange)
    requires pk !in c
    ensures ch.reply.Failed? ==> ch.reply.status == HttpBadRequest && ch.catalog == c
    ensures ch.reply.Saved? <==> PostValid(c, req) && !Misordered(req.start, req.end)
    ensures ch.reply.Saved? ==>
              && ch.reply.status == HttpCreated
              && ch.catalog == c[pk := ch.reply.project]
              && ch.reply.project.name == req.name.value
              && ch.reply.project.description == req.description.value
              && ch.reply.project.status == req.status.value
              && ch.reply.project.start == req.start
              && ch.reply.project.end == req.end
    // with both dates the span is their positive difference
    ensures ch.reply.Saved? && req.start.Some? && req.end.Some? ==>
              ch.reply.project.span == req.end.value - req.start.value > 0
    // with only an end date it is counted from today, and nothing orders them
    ensures ch.reply.Saved? && req.start.None? && req.end.Some? ==>
              ch.reply.project.span == req.end.value - today
    ensures ch.reply.Saved? && req.end.None? ==> ch.reply.project.span == DefaultSpan
    ensures NamesUnique(c) ==> NamesUnique(ch.catalog)
  {
    if !PostValid(c, req) then
      ProjectChange(Failed(HttpBadRequest, "Invalid data."), c)
    else if Misordered(req.start, req.end) then
      ProjectChange(Failed(HttpBadRequest, BadPostDates), c)
    else
      var p := Project(req.name.value, req.description.value, req.start, req.end, req.status.value,
                       Span(req.start, req.end, today, DefaultSpan));
      ProjectChange(Saved(HttpCreated, p), c[pk := p])
  }

  /** `serializer.is_valid()` on a partial update of project `pk`: only the
      supplied fields are checked, and the name must not belong to another
      project. */
  predicate UpdateValid(c: Catalog, pk: nat, req: ProjectRequest)
  {
    && (req.name.None? || (ValidProjectName(req.name.value) && !NameTaken(c, req.name.value, Some(pk))))
    && (req.description.None? || ValidDescription(req.description.value))
    && (req.status.None? || ValidStatus(req.status.value))
  }

  /** `validated_data.get(key, stored)`. */
  function Either<T>(given: Option<T>, stored: Option<T>): Option<T>
  {
    if given.Some? then given else stored
  }

  /** `ProjectUpdate.put` on the project stored under `pk`. */
  function ProjectUpdate(c: Catalog, pk: nat, req: ProjectRequest, today: int): (ch: ProjectChange)
    ensures pk !in c ==> ch.reply == Failed(HttpNotFound, "Not found.") && ch.catalog == c
    ensures ch.reply.Failed? ==> ch.reply.status in {HttpNotFound, HttpBadRequest} && ch.catalog == c
    ensures ch.reply.Saved? <==>
              pk in c && UpdateValid(c, pk, req)
              && !Misordered(Either(req.start, c[pk].start), Either(req.end, c[pk].end))
    ensures ch.reply.Saved? ==>
              && ch.reply.status == HttpOk
              && ch.catalog == c[pk := ch.reply.project]
              && ch.reply.project.name == OrElse(req.name, c[pk].name)
              && ch.reply.project.description == OrElse(req.description, c[pk].description)
              && ch.reply.project.status == OrElse(req.status, c[pk].status)
              && ch.reply.project.start == Either(req.start, c[pk].start)
              && ch.reply.project.end == Either(req.end, c[pk].end)
    // a missing date falls back to the stored one before the span is computed
    ensures ch.reply.Saved? && ch.reply.project.start.Some? && ch.reply.project.end.Some? ==>
              ch.reply.project.span == ch.reply.project.end.value - ch.reply.project.start.value > 0
    ensures ch.reply.Saved? && ch.reply.project.start.None? && ch.reply.project.end.Some? ==>
              ch.reply.project.span == ch.reply.project.end.value - today
    // with no end date at all the stored span is kept: there is no default here
    ensures ch.reply.Saved? && ch.reply.project.end.None? ==> ch.reply.project.span == c[pk].span
    ensures NamesUnique(c) ==> NamesUnique(ch.catalog)
  {
    if pk !in c then ProjectChange(Failed(HttpNotFound, "Not found."), c)
    else if !UpdateValid(c, pk, req) then ProjectChange(Failed(HttpBadRequest, "Invalid data."), c)
    else
      var stored := c[pk];
      var start, end := Either(req.start, stored.start), Either(req.end, stored.end);
      if Misordered(start, end) then ProjectChange(Failed(HttpBadRequest, BadUpdateDates), c)
      else
        var p := Project(OrElse(req.name, stored.name), OrElse(req.description, stored.description), start, end,
                         OrElse(req.status, stored.status), Span(start, end, today, stored.span));
        ProjectChange(Saved(HttpOk, p), c[pk := p])
  }

  /** The client's value for the read-only span changes nothing. */
  lemma SpanIsReadOnly(c: Catalog, pk: nat, req: ProjectRequest, today: int, sent: Option<int>)
    ensures pk !in c ==> ProjectPost(c, pk, req, today) == ProjectPost(c, pk, req.(span := sent), today)
    ensures ProjectUpdate(c, pk, req, today) == ProjectUpdate(c, pk, req.(span := sent), today)
  {
  }

  /** Editing both dates of a project gives the span creating it with those
      dates would have given. */
  lemma UpdateAgreesWithPost(c: Catalog, pk: nat, newPk: nat, req: ProjectRequest, today: int)
    requires newPk !in c
    requires req.start.Some? && req.end.Some?
    requires ProjectPost(c, newPk, req, today).reply.Saved?
    requires ProjectUpdate(c, pk, req, today).reply.Saved?
    ensures ProjectUpdate(c, pk, req, today).reply.project.span ==
            ProjectPost(c, newPk, req, today).reply.project.span
  {
  }

  /** Sending the same edit twice on the same day stores the same project as
      sending it once. */
  lemma UpdateIdempotent(c: Catalog, pk: nat, req: ProjectRequest, today: int)
    requires ProjectUpdate(c, pk, req, today).reply.Saved?
    ensures var once := ProjectUpdate(c, pk, req, today);
            ProjectUpdate(once.catalog, pk, req, today) == once
  {
  }
}

=== FILE: text.dfy ===
/** The pieces of Python's `str` behaviour the application relies on:
    which characters are whitespace, `split()` with no argument, `strip()`,
    lower-casing, and finding the last occurrence of a character. */
module Text {

  import opened Common

  /** `str.isspace()`; also the class `\s` matches in a `str` regular
      expression, and the separators `str.split()` and `str.strip()` use. */
  predicate IsSpace(c: char)
  {
    || c == ' '
    || ('\t' <= c <= '\r')              // tab, line feed, vertical tab, form feed, carriage return
    || ('\U{1C}' <= c <= '\U{1F}')      // information separators
    || c == '\U{85}' || c == '\U{A0}'
    || c == '\U{1680}'
    || ('\U{2000}' <= c <= '\U{200A}')
    || c == '\U{2028}' || c == '\U{2029}'
    || c == '\U{202F}' || c == '\U{205F}' || c == '\U{3000}'
  }

  predicate IsAsciiLetter(c: char)
  {
    ('A' <= c <= 'Z') || ('a' <= c <= 'z')
  }

  predicate IsAsciiDigit(c: char)
  {
    '0' <= c <= '9'
  }

  predicate NoSpace(s: string)
  {
    forall i :: 0 <= i < |s| ==> !IsSpace(s[i])
  }

  /** A word as `split()` produces it: non-empty and free of whitespace. */
  predicate IsWord(w: string)
  {
    w != [] && NoSpace(w)
  }

  /** Splitting the rest of the input `s`, where `cur` holds the characters
      of the word being read so far. */
  function SplitFrom(s: string, cur: string): (ws: seq<string>)
    requires NoSpace(cur)
    ensures forall i :: 0 <= i < |ws| ==> IsWord(ws[i])
    decreases |s|
  {
    if s == [] then
      (if cur == [] then [] else [cur])
    else if IsSpace(s[0]) then
      (if cur == [] then [] else [cur]) + SplitFrom(s[1..], [])
    else
      SplitFrom(s[1..], cur + [s[0]])
  }

  /** `s.split()`: the maximal runs of non-whitespace characters, in order;
      leading, trailing and repeated whitespace produce no empty words. */
  function Words(s: string): (ws: seq<string>)
    ensures forall i :: 0 <= i < |ws| ==> IsWord(ws[i])
  {
    SplitFrom(s, [])
  }

  /** `" ".join(ws)`. */
  function JoinWords(ws: seq<string>): string
  {
    if ws == [] then []
    else if |ws| == 1 then ws[0]
    else ws[0] + " " + JoinWords(ws[1..])
  }

  /** Reading a whitespace-free chunk just extends the current word. */
  lemma {:induction false} SplitAcrossWord(w: string, rest: string, cur: string)
    requires NoSpace(w) && NoSpace(cur)
    ensures NoSpace(cur + w)
    ensures SplitFrom(w + rest, cur) == SplitFrom(rest, cur + w)
    decreases |w|
  {
    assert NoSpace(cur + w) by {
      forall i | 0 <= i < |cur + w|
        ensures !IsSpace((cur + w)[i])
      {
        if i < |cur| { assert (cur + w)[i] == cur[i]; } else { assert (cur + w)[i] == w[i - |cur|]; }
      }
    }
    if w == [] {
      assert w + rest == rest;
      assert cur + w == cur;
    } else {
      assert (w + rest)[0] == w[0];
      assert (w + rest)[1..] == w[1..] + rest;
      assert NoSpace(cur + [w[0]]) by {
        forall i | 0 <= i < |cur + [w[0]]|
          ensures !IsSpace((cur + [w[0]])[i])
        {
          if i < |cur| { assert (cur + [w[0]])[i] == cur[i]; }
        }
      }
      SplitAcrossWord(w[1..], rest, cur + [w[0]]);
      assert cur + [w[0]] + w[1..] == cur + w;
    }
  }

  /** Splitting undoes joining with single spaces, for any list of words. */
  lemma {:induction false} WordsOfJoin(ws: seq<string>)
    requires forall i :: 0 <= i < |ws| ==> IsWord(ws[i])
    ensures Words(JoinWords(ws)) == ws
    decreases |ws|
  {
    if ws == [] {
    } else if |ws| == 1 {
      SplitAcrossWord(ws[0], [], []);
      assert ws[0] + [] == ws[0];
      assert [] + ws[0] == ws[0];
    } else {
      var w, tail := ws[0], JoinWords(ws[1..]);
      assert JoinWords(ws) == w + (" " + tail);
      SplitAcrossWord(w, " " + tail, []);
      assert [] + w == w;
      assert (" " + tail)[0] == ' ';
      assert (" " + tail)[1..] == tail;
      assert SplitFrom(" " + tail, w) == [w] + SplitFrom(tail, []);
      WordsOfJoin(ws[1..]);
      assert [w] + ws[1..] == ws;
    }
  }

  /** A run of whitespace, possibly empty. */
  predicate AllSpace(s: string)
  {
    forall i :: 0 <= i < |s| ==> IsSpace(s[i])
  }

  /** The words `ws` laid out with the whitespace runs `gaps` around them:
      `gaps[0] + ws[0] + gaps[1] + ... + ws[n - 1] + gaps[n]`. */
  function Spaced(gaps: seq<string>, ws: seq<string>): string
    requires |gaps| == |ws| + 1
    decreases |ws|
  {
    if ws == [] then gaps[0] else gaps[0] + ws[0] + Spaced(gaps[1..], ws[1..])
  }

  /** Whitespace between words: every run is whitespace, and the runs
      between two words are not empty. */
  predicate Separates(gaps: seq<string>, ws: seq<string>)
  {
    && |gaps| == |ws| + 1
    && (forall i :: 0 <= i < |gaps| ==> AllSpace(gaps[i]))
    && (forall i :: 0 < i < |ws| ==> gaps[i] != [])
  }

  /** Whitespace read between words produces nothing. */
  lemma {:induction false} SkipSpaces(sp: string, rest: string)
    requires AllSpace(sp)
    ensures SplitFrom(sp + rest, []) == SplitFrom(rest, [])
    decreases |sp|
  {
    if sp != [] {
      assert (sp + rest)[0] == sp[0];
      assert (sp + rest)[1..] == sp[1..] + rest;
      SkipSpaces(sp[1..], rest);
    } else {
      assert sp + rest == rest;
    }
  }

  /** Whitespace after a word ends it. */
  lemma EndWord(sp: string, rest: string, cur: string)
    requires AllSpace(sp) && sp != [] && IsWord(cur)
    ensures SplitFrom(sp + rest, cur) == [cur] + SplitFrom(rest, [])
  {
    assert (sp + rest)[0] == sp[0];
    assert (sp + rest)[1..] == sp[1..] + rest;
    SkipSpaces(sp[1..], rest);
  }

  /** After the first word, reading the rest of a spaced layout ends that
      word and then splits the rest afresh. */
  lemma AfterFirstWord(gaps: seq<string>, ws: seq<string>)
    requires Separates(gaps, ws) && |ws| > 0
    requires forall i :: 0 <= i < |ws| ==> IsWord(ws[i])
    ensures IsWord(ws[0]) && SplitFrom(Spaced(gaps[1..], ws[1..]), ws[0]) == [ws[0]] + Words(Spaced(gaps[1..], ws[1..]))
  {
    var rest := Spaced(gaps[1..], ws[1..]);
    if ws[1..] == [] {
      assert rest == gaps[1];
      SkipSpaces(gaps[1], []);
      assert gaps[1] + [] == gaps[1];
      if gaps[1] != [] {
        EndWord(gaps[1], [], ws[0]);
      }
    } else {
      var after := Spaced(gaps[2..], ws[2..]);
      assert gaps[1..][1..] == gaps[2..] && ws[1..][1..] == ws[2..];
      assert rest == gaps[1] + (ws[1] + after);
      EndWord(gaps[1], ws[1] + after, ws[0]);
      SkipSpaces(gaps[1], ws[1] + after);
    }
  }

  /** `split()` finds exactly the words, in order, whatever whitespace
      surrounds and separates them: leading and trailing runs and repeated
      separators yield no empty words. */
  lemma {:induction false} WordsOfSpaced(gaps: seq<string>, ws: seq<string>)
    requires Separates(gaps, ws)
    requires forall i :: 0 <= i < |ws| ==> IsWord(ws[i])
    ensures Words(Spaced(gaps, ws)) == ws
    decreases |ws|
  {
    if ws == [] {
      SkipSpaces(gaps[0], []);
      assert gaps[0] + [] == gaps[0];
    } else {
      var rest := Spaced(gaps[1..], ws[1..]);
      assert Spaced(gaps, ws) == gaps[0] + (ws[0] + rest);
      SkipSpaces(gaps[0], ws[0] + rest);
      SplitAcrossWord(ws[0], rest, []);
      assert [] + ws[0] == ws[0];
      AfterFirstWord(gaps, ws);
      WordsOfSpaced(gaps[1..], ws[1..]);
      assert [ws[0]] + ws[1..] == ws;
    }
  }

  /** The two-word case the permission gate relies on. */
  lemma TwoWords(lead: string, first: string, sep: string, second: string, trail: string)
    requires AllSpace(lead) && AllSpace(sep) && AllSpace(trail) && sep != []
    requires IsWord(first) && IsWord(second)
    ensures Words(lead + first + sep + second + trail) == [first, second]
  {
    var gaps, ws := [lead, sep, trail], [first, second];
    assert Spaced(gaps[2..], ws[2..]) == trail;
    assert Spaced(gaps[1..], ws[1..]) == sep + second + trail;
    assert Spaced(gaps, ws) == lead + first + (sep + second + trail);
    assert lead + first + sep + second + trail == lead + first + (sep + second + trail);
    WordsOfSpaced(gaps, ws);
  }

  /** `lstrip()`: the suffix of `s` left after dropping leading whitespace. */
  function StripStart(s: string): (r: string)
    ensures |r| <= |s| && r == s[|s| - |r|..]
    ensures r == [] || !IsSpace(r[0])
    ensures forall i :: 0 <= i < |s| - |r| ==> IsSpace(s[i])
    decreases |s|
  {
    if s != [] && IsSpace(s[0]) then StripStart(s[1..]) else s
  }

  /** `rstrip()`: the prefix of `s` left after dropping trailing whitespace. */
  function StripEnd(s: string): (r: string)
    ensures |r| <= |s| && r == s[..|r|]
    ensures r == [] || !IsSpace(r[|r| - 1])
    ensures forall i :: |r| <= i < |s| ==> IsSpace(s[i])
    decreases |s|
  {
    if s != [] && IsSpace(s[|s| - 1]) then StripEnd(s[..|s| - 1]) else s
  }

  /** `strip()`. */
  function Strip(s: string): (r: string)
    ensures r == [] || (!IsSpace(r[0]) && !IsSpace(r[|r| - 1]))
  {
    StripEnd(StripStart(s))
  }

  /** A string already free of whitespace at both ends is its own `strip()`. */
  lemma StripTrimmed(s: string)
    requires s == [] || (!IsSpace(s[0]) && !IsSpace(s[|s| - 1]))
    ensures Strip(s) == s
  {
  }

  function LowerChar(c: char): char
  {
    if 'A' <= c <= 'Z' then (c as int + 32) as char else c
  }

  /** Lower-casing, on the ASCII letters only. */
  function LowerAscii(s: string): (r: string)
    ensures |r| == |s|
    ensures forall i :: 0 <= i < |s| ==> r[i] == LowerChar(s[i])
  {
    seq(|s|, i requires 0 <= i < |s| => LowerChar(s[i]))
  }

  /** The index of the last `c` in `s`, if there is one: what
      `s.rsplit(c, 1)` splits at. */
  function LastIndex(s: string, c: char): (r: Option<nat>)
    ensures r.None? <==> c !in s
    ensures r.Some? ==> r.value < |s| && s[r.value] == c
    ensures r.Some? ==> forall j :: r.value < j < |s| ==> s[j] != c
    decreases |s|
  {
    if s == [] then None
    else if s[|s| - 1] == c then Some(|s| - 1)
    else
      var r := LastIndex(s[..|s| - 1], c);
      assert s == s[..|s| - 1] + [s[|s| - 1]];
      r
  }

  /** The last occurrence is the one with no occurrence after it. */
  lemma LastIndexIs(s: string, c: char, i: nat)
    requires i < |s| && s[i] == c
    requires forall j :: i < j < |s| ==> s[j] != c
    ensures LastIndex(s, c) == Some(i)
    decreases |s|
  {
  }
}

=== FILE: validators.dfy ===
/** The field rules of myapp/models.py. Each `RegexValidator` there matches a
    whole value against one character class; here each is a predicate over
    the characters of the value. The serializers built from these models add
    the `max_length` bounds and reject blank values. */
module Validators {

  import opened Text

  /** The class `[A-Za-z_]`. */
  predicate NameChar(c: char)
  {
    IsAsciiLetter(c) || c == '_'
  }

  /** `no_space_validator`, `^[A-Za-z_]+$`: at least one character, each a
      letter or an underscore. */
  predicate NoSpaceText(s: string)
  {
    |s| > 0 && forall i :: 0 <= i < |s| ==> NameChar(s[i])
  }

  /** The class `[A-Za-z0-9\s.,;:!?()-]`. */
  predicate DescriptionChar(c: char)
  {
    IsAsciiLetter(c) || IsAsciiDigit(c) || IsSpace(c) || c in ".,;:!?()-"
  }

  /** `description_validator`, `^[A-Za-z0-9\s.,;:!?()-]*$`: the empty string
      matches too. */
  predicate DescriptionText(s: string)
  {
    forall i :: 0 <= i < |s| ==> DescriptionChar(s[i])
  }

  /** `no_special_char_validator`, `^[A-Za-z ]+$`. No field uses it. */
  predicate LettersAndSpaces(s: string)
  {
    |s| > 0 && forall i :: 0 <= i < |s| ==> IsAsciiLetter(s[i]) || s[i] == ' '
  }

  /** How the regex engine reads `^[C]*$`: the value is exhausted one
      character of the class at a time from the left. */
  function StarMatch(cls: char -> bool, s: string): bool
    decreases |s|
  {
    s == [] || (cls(s[0]) && StarMatch(cls, s[1..]))
  }

  /** `^[C]+$`: one character of the class, then `[C]*`. */
  function PlusMatch(cls: char -> bool, s: string): bool
  {
    s != [] && cls(s[0]) && StarMatch(cls, s[1..])
  }

  /** The engine's left-to-right reading agrees with "every character is in
      the class". */
  lemma {:induction false} StarMatchAll(cls: char -> bool, s: string)
    ensures StarMatch(cls, s) <==> forall i :: 0 <= i < |s| ==> cls(s[i])
    decreases |s|
  {
    if s != [] {
      StarMatchAll(cls, s[1..]);
      assert forall i :: 1 <= i < |s| ==> s[i] == s[1..][i - 1];
    }
  }

  lemma PlusMatchAll(cls: char -> bool, s: string)
    ensures PlusMatch(cls, s) <==> s != [] && forall i :: 0 <= i < |s| ==> cls(s[i])
  {
    if s != [] {
      StarMatchAll(cls, s[1..]);
      assert forall i :: 1 <= i < |s| ==> s[i] == s[1..][i - 1];
    }
  }

  /** `Employee.first_name` and `last_name`: at most 30 characters, matched
      by `^[A-Za-z_]+$`. */
  predicate ValidPersonName(s: string)
    ensures ValidPersonName(s) <==> |s| <= 30 && PlusMatch(NameChar, s)
  {
    PlusMatchAll(NameChar, s);
    |s| <= 30 && NoSpaceText(s)
  }

  /** `ProjectDetails.name`: at most 100 characters, matched by
      `^[A-Za-z_]+$` (uniqueness among projects is checked against the
      stored projects). */
  predicate ValidProjectName(s: string)
    ensures ValidProjectName(s) <==> |s| <= 100 && PlusMatch(NameChar, s)
  {
    PlusMatchAll(NameChar, s);
    |s| <= 100 && NoSpaceText(s)
  }

  /** `ProjectDetails.description`: not blank, and matched by
      `^[A-Za-z0-9\s.,;:!?()-]*$`. */
  predicate ValidDescription(s: string)
    ensures ValidDescription(s) <==> s != [] && StarMatch(DescriptionChar, s)
  {
    StarMatchAll(DescriptionChar, s);
    s != [] && DescriptionText(s)
  }

  /** `ProjectDetails.status`: not blank, at most 50 characters, and matched
      by the description pattern rather than the letters-and-spaces one. */
  predicate ValidStatus(s: string)
    ensures ValidStatus(s) <==> s != [] && |s| <= 50 && StarMatch(DescriptionChar, s)
  {
    StarMatchAll(DescriptionChar, s);
    s != [] && |s| <= 50 && DescriptionText(s)
  }

  /** Every status the unused letters-and-spaces rule would accept is accepted
      by the rule actually applied, but not the other way round: "v1.0" is a
      valid status. */
  lemma StatusRuleIsWider(s: string)
    ensures LettersAndSpaces(s) && |s| <= 50 ==> ValidStatus(s)
    ensures ValidStatus("v1.0") && !LettersAndSpaces("v1.0")
  {
    assert !IsAsciiLetter("v1.0"[1]) && "v1.0"[1] != ' ';
  }
}
